=== FILE: README.md ===
# autoAdjust, modelled in Dafny

`autoAdjust` is an AngularJS attribute directive for `<input>` elements. It
keeps the control's value within bounds that can change at run time:

- a numeric control (`type` starting with `number` or `range`) or a date-like
  control (`type` starting with `date` or `month`, which includes
  `datetime-local`) watches its `min` and `max` attributes, and raises or
  lowers its value when a bound moves past it;
- any other control watches `maxlength`, and cuts its value down to that
  length.

Whenever a handler gets past its validity checks, it schedules one
deferred `input` event, so that bindings see the new value.

The model is a set of pure functions over immutable data:

| module | file | contents |
|---|---|---|
| `Text` | `text.dfy` | ECMAScript white space, `String.prototype.trim`, decimal numerals |
| `Wrappers` | `wrappers.dfy` | `Option`, for attributes that may be absent |
| `JsValue` | `js_value.dfy` | the values the parsers produce, and JavaScript's `<`, `<=`, `>` on them |
| `Calendar` | `calendar.dfy` | proleptic Gregorian day numbers for years 0000–9999, and their inverse |
| `JsNumber` | `js_number.dfy` | `Number(s)`, `String(n)` and the directive's `parseAsNumber` |
| `JsDate` | `js_date.dfy` | `new Date(s)` for date-only strings, and `dateObjectToHtmlInputValue` |
| `InputType` | `input_type.dfy` | type classification, `parseAsInputType`, the type and order checks, write-back |
| `AutoAdjust` | `auto_adjust.dfy` | the control, the three handlers, watch selection, the first digest, digests after attribute changes |
| `AutoAdjustProperties` | `properties.dfy` | properties relating several handler calls |
| `AutoAdjustScenarios` | `scenarios.dfy` | concrete controls worked through the model |

The element is a `Control`: its `type`, its current value, and the `min`,
`max` and `maxlength` attributes. Each attribute is absent (`None`) or a
string. A handler call returns an `Effect`: the control afterwards, plus the
number of notifications it scheduled. The directive attached to a control is
an `Adjuster`, which counts the notifications scheduled so far.

## Behaviour notes

These follow the code as written. Where a reader might expect something
else, the difference is stated here.

- **Lone bounds do nothing.** A `min` without a usable `max`, or a `max`
  without a usable `min`, never clamps. This departs from what the guard's
  fallback evidently means; see "## Findings".
- **Empty number values read as 0.** `Number("")` is 0. An empty number
  control therefore counts as holding 0, and a positive `min` fills it in
  (`AutoAdjustScenarios.EmptyNumberRaisedToMin`). `parseAsNumber` is
  different: it treats a blank string as NaN.
- **Month bounds are written back as full dates.** A clamped date bound is
  written back as `toISOString().substring(0, 10)`. So a `month` control
  whose `min` is `2020-03` gets the value `2020-03-01`
  (`AutoAdjustProperties.MonthBoundWrittenAsDate`).
- **Truncation uses the raw `maxlength` string.** The length test uses the
  parsed number, but `slice(0, maxlength)` converts the raw string itself. A
  negative `maxlength` therefore counts from the end, and each change that
  fires cuts again (`AutoAdjustProperties.NegativeMaxlengthKeepsCutting`).
- **Listener order.** On the first digest, AngularJS calls every watch
  listener once, in registration order: `min`, then `max`. That is why
  attaching to a control with usable bounds schedules two notifications and
  leaves the value in range (`AutoAdjustProperties.AttachEstablishesRange`).
  Later digests call only the listeners whose attribute changed, again in
  registration order, and only after every attribute holds its new value.
  So when `min` and `max` arrive in the same digest, the `min` listener
  already sees the new `max`. Setting them in separate digests gives a
  different result (`AutoAdjustScenarios.BothBoundsInOneDigest` and
  `AutoAdjustScenarios.BoundsSetOneAtATime`).

## Model

| member | source | states |
|---|---|---|
| InputType.ClassifyInputTypes | auto-adjust.js:21-22 | `number` and `range` are numeric; `date`, `month` and `datetime-local` are date-like; `text`, `search`, `url`, `tel`, `email`, `password`, `week`, `time`, `color`, `checkbox` and `hidden` are neither |
| InputType.Classify | auto-adjust.js:148-156 | any type beginning with `number` or `range` is numeric, whatever follows; a type beginning with `date` or `month` is date-like unless the numeric test already matched; every other type falls into the third category |
| InputType.OtherByFirstLetter | auto-adjust.js:21-22 | a type that is empty, or starts with none of the letters n, r, d, m, matches neither prefix pattern |
| AutoAdjust.Attach | auto-adjust.js:37-46 | linking plus the first digest changes only the value. A numeric or date-like control runs the `min` handler and then the `max` handler on the result, each with the attribute as it stands, and the notification count is the sum of the two. Any other control runs only the `maxlength` handler. So at most two notifications, and at most one when only `maxlength` is watched |
| AutoAdjust.ChangeAttribute | auto-adjust.js:37-55 | a bound change updates that attribute and adds at most one notification. A changed `min` or `max` on a numeric or date-like control, or a changed `maxlength` on any other control, runs exactly that handler on the updated control and adds its notification. An unwatched or unchanged attribute calls no listener and changes nothing else |
| AutoAdjust.Digest | auto-adjust.js:37-62 | several attributes change before one digest: all take their new values first. A numeric or date-like control then runs the `min` handler if `min` changed, and after it the `max` handler if `max` changed. Any other control runs the `maxlength` handler if `maxlength` changed. Only the value changes, at most two notifications are added, and with nothing watched changed nothing happens |
| AutoAdjustProperties.SingleChangeIsDigest | auto-adjust.js:37-46 | changing one attribute is the digest in which only that attribute changed |
| AutoAdjustProperties.DigestKeepsRange | auto-adjust.js:58-121 | a digest that changes `min`, `max` or both and leaves them usable keeps an in-range value in range |
| AutoAdjust.SliceEnd | auto-adjust.js:134 | the end index `slice(0, end)` uses: 0 for NaN, `max(len + n, 0)` for a negative n, `min(n, len)` otherwise, as ECMAScript's `String.prototype.slice` defines it |
| AutoAdjust.HandleMinChange | auto-adjust.js:58-90 | only the value can change; one notification exactly when both bounds parse to ordered real values; the value is raised to the new `min` (written back so that it parses as `min`) exactly when it is a real value below `min`; otherwise the control is unchanged |
| AutoAdjust.HandleMaxChange | auto-adjust.js:93-121 | the mirror image of the `min` handler: the value is lowered to `max` exactly when it is a real value above it |
| AutoAdjust.HandleMinChangeAsIntended | auto-adjust.js:58-90 | the `min` handler with the corrected type check: one notification exactly when `min` is real and not above a real `max`; the value is raised to `min` exactly when it is a real value below it; otherwise the control is unchanged |
| AutoAdjust.HandleMaxChangeAsIntended | auto-adjust.js:93-121 | the mirror image for `max`: an absent or invalid `min` no longer blocks lowering |
| AutoAdjust.HandleMaxlengthChange | auto-adjust.js:124-143 | a blank `maxlength`, or one that is not an integer literal, leaves everything alone and schedules nothing; otherwise one notification, and the value becomes a prefix of itself, of length `min(len, n)` for n ≥ 0 and `max(0, len + n)` for n < 0 |
| InputType.ParseAsInputType | auto-adjust.js:146-158 | a numeric control reads a number or NaN; a date control reads a valid date in range or an invalid date; an absent attribute reads as NaN or an invalid date; any other control reads `null` |
| JsNumber.ParseAsNumber | auto-adjust.js:161-171 | NaN exactly for blank text or text `Number` rejects; otherwise the same number as `Number(s)` |
| JsNumber.ParseAsNumberFormat | auto-adjust.js:161-171 | `parseAsNumber` reads any written integer back as that integer |
| JsNumber.ParseNumber | auto-adjust.js:149 | `Number(s)` gives 0 for blank text, and NaN exactly when the trimmed text is not an integer literal |
| JsNumber.ParseFormatNumber | auto-adjust.js:75 | a number written back with `String(n)` reads as the same number |
| JsNumber.FormatNumber | auto-adjust.js:75 | `String(n)` is a decimal integer literal with no surrounding white space, whose value is n; it is canonical (no `+`, no leading zero, no `-0`), and starts with `-` exactly when n is negative |
| JsNumber.CanonicalNumeralUnique | auto-adjust.js:75 | every canonical integer literal is exactly what `String` writes for its value, so a clamped number is written in one determined way |
| Text.DecimalOfValue | auto-adjust.js:75 | a digit string without a leading zero is the shortest numeral of the number it denotes |
| Text.Trim | auto-adjust.js:8-16 | the result is empty exactly when the string is all white space, and it neither starts nor ends with white space |
| Text.TrimTakesMiddle | auto-adjust.js:8-16 | trimming removes only white space, and only at the two ends |
| InputType.IntendedBoundsUsableIff | auto-adjust.js:174-197 | with a type check that rejects NaN and invalid dates (`InputType.IsRealOfType`, `InputType.IntendedOrder`), the guard passes exactly when the changed bound is real and, if the other bound is real too, the two are in order |
| InputType.BoundsUsableIff | auto-adjust.js:174-197 | the guard passes exactly when the control is numeric or date-like and both bounds are real, ordered values; NaN and invalid dates never slip through the type-check fallback. It is stated about the predicates `InputType.IsExpectedType` (`parsedValueIsExpectedType`, which passes NaN and invalid dates) and `InputType.MinIsLessThanMax` (`minIsLessThanMax`, with its type-check fallback) |
| InputType.Render | auto-adjust.js:70-76 | what `element.val(bound)` stores reads back, with `Number` or `new Date`, as the same bound |
| InputType.ParseRender | auto-adjust.js:70-76 | a bound written back into the control parses as that same bound |
| JsDate.FormatDate | auto-adjust.js:202-206 | the written date is ten characters long and reads back as the same day |
| JsDate.FormatParseDate | auto-adjust.js:202-206 | a `YYYY-MM-DD` string that reads as a date is written back unchanged |
| JsDate.ParseDate | auto-adjust.js:153 | `new Date(s)` is a valid date in years 0000–9999 or an invalid date, never NaN; only four-, seven- and ten-character texts read as valid dates |
| JsDate.ParseFormatCalendarDate | auto-adjust.js:153 | `new Date` reads a date's `YYYY-MM-DD` text as that date |
| JsDate.FormatParseCalendarDate | auto-adjust.js:204 | a ten-character string that reads as a date is exactly that date's `YYYY-MM-DD` text |
| JsDate.MonthFormWrittenOut | auto-adjust.js:204 | a `YYYY-MM` string that reads as a date is written back as `YYYY-MM-01` |
| Calendar.DayNumberOrder | auto-adjust.js:68 | comparing two valid dates compares their calendar order: by year, then month, then day |
| Calendar.DayNumberInjective | auto-adjust.js:68 | distinct valid dates have distinct time values |
| Calendar.DateOfDayNumber | auto-adjust.js:204 | the date recovered from a day number is the date that produced it |
| JsValue.NaNIsUnordered | auto-adjust.js:68 | NaN and invalid dates are neither less than, nor at most, any value |
| AutoAdjustProperties.MinChangeNeverLowers | auto-adjust.js:68-77 | a `min` change never lowers a real value, and with usable bounds the value ends at or above `min` |
| AutoAdjustProperties.MaxChangeNeverRaises | auto-adjust.js:103-112 | a `max` change never raises a real value, and with usable bounds the value ends at or below `max` |
| AutoAdjustProperties.UnparsableValueIsKept | auto-adjust.js:68 | a value that parses to NaN or an invalid date is never replaced |
| AutoAdjustProperties.MinChangeIdempotent | auto-adjust.js:58-90 | running the `min` handler twice gives the same control and the same notification count as running it once |
| AutoAdjustProperties.MaxChangeIdempotent | auto-adjust.js:93-121 | the same for the `max` handler |
| AutoAdjustProperties.LoneBoundIsIgnored | auto-adjust.js:60-66 | with the other bound absent, a bound change neither changes the control nor notifies |
| AutoAdjustProperties.LoneMinClampsAsIntended | auto-adjust.js:174-180 | for a real `min` above a real value with `max` absent, the handler as written changes nothing and schedules nothing, while the corrected one raises the value to `min` with one notification |
| AutoAdjustProperties.LoneMaxClampsAsIntended | auto-adjust.js:174-180 | the same for a real `max` below the value with `min` absent |
| AutoAdjustProperties.IntendedDiffersOnlyForLoneBounds | auto-adjust.js:174-180 | the corrected handlers agree with the ones as written except when the changed bound is real and the other is not |
| AutoAdjustProperties.OtherIgnoresRange | auto-adjust.js:183-195 | a text-like control never reacts to `min` or `max` |
| AutoAdjustProperties.MaxlengthIdempotent | auto-adjust.js:124-143 | with a non-negative `maxlength`, truncating again changes nothing, and the value fits within `maxlength` |
| AutoAdjustProperties.NegativeMaxlengthKeepsCutting | auto-adjust.js:133-135 | with a negative `maxlength`, a second call shortens a non-empty result again |
| AutoAdjustProperties.MaxStepInRange | auto-adjust.js:103-112 | the `max` listener keeps a value that is at or above `min` within both bounds |
| AutoAdjustProperties.MinThenMaxInRange | auto-adjust.js:38-39 | the `min` listener followed by the `max` listener brings a real value within usable bounds, with one notification each |
| AutoAdjustProperties.AttachEstablishesRange | auto-adjust.js:37-40 | attaching to a control with usable bounds and a real value leaves the value within the bounds, with two notifications pending |
| AutoAdjustProperties.ChangeKeepsRange | auto-adjust.js:38-39 | a `min` or `max` change that leaves the bounds usable keeps an in-range value in range |
| AutoAdjustProperties.DateBoundsClamp | auto-adjust.js:95-107 | a date later than a new `max` that is not before `min` triggers lowering, and the written value is the `max` text |
| AutoAdjustProperties.DateLoweredToMax | auto-adjust.js:103-107 | such a date control ends holding the `max` date as `YYYY-MM-DD`, with one notification |
| AutoAdjustProperties.DateReadsAs | auto-adjust.js:152-153 | a date control reads a date's `YYYY-MM-DD` text as that date, and writes the date back as the same text |
| AutoAdjustProperties.MonthBoundWrittenAsDate | auto-adjust.js:68-72 | when a `YYYY-MM` `min` raises a date-like control, the value becomes `YYYY-MM-01` |
| AutoAdjustScenarios.NumberRaisedToMin | auto-adjust.js:58-90 | number 5 with `min` 10 and `max` 100 becomes "10", with one notification |
| AutoAdjustScenarios.EmptyNumberRaisedToMin | auto-adjust.js:60 | an empty number control with `min` 10 and `max` 20 becomes "10" |
| AutoAdjustScenarios.CrossedBoundsIgnored | auto-adjust.js:64 | number 3 with `min` 15 and `max` 10 is left alone, and nothing is scheduled |
| AutoAdjustScenarios.TextTruncated | auto-adjust.js:133-135 | "hello world" with `maxlength` 5 becomes "hello", with one notification |
| AutoAdjustScenarios.BlankMaxlengthIgnored | auto-adjust.js:163-165 | a blank `maxlength` changes nothing and schedules nothing |
| AutoAdjustScenarios.LoneMinCounterexample | auto-adjust.js:176-178 | number 5 with `min` 10 and no `max` stays "5" with nothing scheduled as written, and becomes "10" with one notification when corrected |
| AutoAdjustScenarios.BothBoundsInOneDigest | auto-adjust.js:58-62 | number 20 without bounds, given `min` 0 and `max` 10 in one digest, becomes "10" with two notifications |
| AutoAdjustScenarios.BoundsSetOneAtATime | auto-adjust.js:64 | the same bounds set in two digests also give "10", but with one notification, because the lone `min` is ignored |

## Findings

| source | as written | input that shows it | evidently intended | confidence | as-written member | corrected member |
|---|---|---|---|---|---|---|
| auto-adjust.js:174-197 | `minIsLessThanMax` accepts when either bound fails `parsedValueIsExpectedType`, but that check is `angular.isNumber` or `angular.isDate`, which accept NaN and invalid dates; the fallback never fires, and a bound whose partner is absent or invalid is ignored | a `number` control holding "5", no `max`, `min` set to "10": the value stays "5" and nothing is scheduled | the fallback clauses exist so that an invalid or absent bound never blocks the other, valid one: "5" becomes "10" with one notification | not executed | AutoAdjustProperties.LoneBoundIsIgnored, AutoAdjustScenarios.LoneMinCounterexample | AutoAdjust.HandleMinChangeAsIntended, AutoAdjust.HandleMaxChangeAsIntended, AutoAdjustProperties.LoneMinClampsAsIntended |

The rest of the model follows the code as written: `Attach`,
`ChangeAttribute` and `Digest` call `HandleMinChange` and `HandleMaxChange`.
The corrected handlers sit beside them, and
`AutoAdjustProperties.IntendedDiffersOnlyForLoneBounds` shows that the two
differ only on lone bounds.

## Left out

- Installing the `trim` fallback only when the host lacks one (auto-adjust.js:8-16) is not modelled. `Text.Trim` models the trimming that both the native method and the fallback perform, over ECMAScript's WhiteSpace and LineTerminator characters.
- AngularJS wiring is reduced to its effect on one control. This covers `angular.module`, `$watch`, the digest loop and `scope`. `$timeout` plus `triggerHandler` becomes a count of pending notifications, because the event's listeners live outside the directive.
- The `attributes` object is reduced to the three bound strings and a fixed `kind`. `parseAsInputType` and `parsedValueIsExpectedType` re-read `attributes.type` on every call (auto-adjust.js:148, 152, 185, 189). A later `type` change would therefore alter parsing and the guard, while the watches chosen at link time stay as they were. That combination is not modelled.
- JsNumber.ParseNumber: reads only optional-sign decimal integers, so fractions, exponents, hexadecimal, binary, octal and `Infinity` read as NaN here. Numbers are unbounded integers, not IEEE doubles, so precision loss and `-0` are not modelled.
- JsDate.ParseDate: reads only the date-only forms `YYYY`, `YYYY-MM` and `YYYY-MM-DD` of ECMAScript's Date Time String Format, as midnight UTC. Date-times, expanded six-digit years and time zones read as invalid dates here. So do the implementation-specific fallback formats that engines accept. A day past its month's end (days 29–31, such as "2019-02-30") also reads as an invalid date here. ECMAScript's format limits the day only to 01–31, and V8 carries the surplus into the next month ("2019-02-30" is 2019-03-02). So a date control given such a bound is not clamped here, where the source clamps it to the carried date and notifies.
- `datetime-local` controls: their values are date-times, which this parser rejects. So they are classified correctly, but they always read as invalid dates.
- Sanitisation of values by the browser is not modelled. This includes a host refusing a value outside a `number` control's syntax, and a browser clamping by itself.
- AutoAdjust.HandleMaxlengthChange: takes `maxlength` as a string. An absent `maxlength` makes the source throw when it calls `trim`, so `Attach`, `ChangeAttribute` and `Digest` require the attribute to be present on text-like controls.
- AutoAdjust.HandleMaxlengthChange: a `maxlength` that is not an integer literal, such as "2.5", "1e1", "0x5" or "Infinity", is a no-op here, because `Number` reads only integer literals in this model. In the source `parseAsNumber` gives a number for these, so the value is cut by `slice` ("abcdef" with "2.5" becomes "ab") and one notification is scheduled.
- AutoAdjust.HandleMinChange: a fractional or exponent-form value or bound reads as NaN here. So a `number` or `range` control holding "0.5" is never raised, and a `min` such as "0.5" makes the handler return early, where the source clamps and notifies.
- AutoAdjust.HandleMaxChange: the same as for `HandleMinChange`: fractional and exponent-form values and bounds read as NaN, so they are never lowered and such a `max` is ignored.
- AutoAdjust.HandleMaxlengthChange: lengths and prefixes count Unicode characters, not the UTF-16 code units that JavaScript's `length` and `slice` count. A value with characters outside the Basic Multilingual Plane is therefore cut differently: "😀😀" with `maxlength` 3 is kept whole here, but cut to three code units by the source.
- JsNumber.FormatNumber: writes every integer in plain decimal. ECMAScript switches to exponent notation from 10^21 on, where the numbers here are unbounded integers rather than doubles.
- A missing `type` attribute makes the source throw at link time. The model's `kind` is always a string.
- `Gruntfile.js` is build tooling and is not part of this model.

=== FILE: auto_adjust.dfy ===
/**
 The `autoAdjust` directive: it keeps an `<input>`'s value within bounds
 that may change at run time. A numeric or date-like control reacts to
 changes of `min` and `max` by clamping its value up or down; any other
 control reacts to changes of `maxlength` by truncating its value. After a
 handler gets past its validity checks it schedules one deferred `input`
 event, counted here as a pending notification.
 */
module AutoAdjust {
  import opened Text
  import opened Wrappers
  import opened JsValue
  import opened Calendar
  import opened JsNumber
  import opened InputType

  /** The `<input>` element: its `type` attribute, current value, and the
      three bound attributes, each absent (`None`) or a string. */
  datatype Control = Control(
    kind: string,
    value: string,
    min: Option<string>,
    max: Option<string>,
    maxlength: Option<string>)
  {
    function Category(): Category {
      Classify(kind)
    }

    /** `parseAsInputType` applied to an attribute of this control. */
    function Parse(a: Option<string>): (v: Value)
      ensures Category() != Other ==> IsExpectedType(Category(), v)
      ensures v.Day? ==> InDateRange(v.days)
    {
      ParseAsInputType(Category(), a)
    }

    /** The control's value parsed as its category. */
    function ParsedValue(): Value {
      Parse(Some(value))
    }
  }

  /** What one handler call does: the control afterwards, and the number of
      deferred change notifications it scheduled. */
  datatype Effect = Effect(control: Control, scheduled: nat)

  /** The number a comparable value stands for in comparisons. */
  function Magnitude(v: Value): int
    requires Comparable(v)
  {
    NumericValue(v).value
  }

  /** Both bounds are real values of the control's category, in order: the
      only situation in which a `min` or `max` handler acts. */
  predicate UsableBounds(c: Control, min: Option<string>, max: Option<string>) {
    var lo := c.Parse(min);
    var hi := c.Parse(max);
    c.Category() != Other && Comparable(lo) && Comparable(hi) && Magnitude(lo) <= Magnitude(hi)
  }

  /** The value is a real value strictly below the new, usable `min`. */
  predicate MinClamps(c: Control, min: Option<string>) {
    && UsableBounds(c, min, c.max)
    && Comparable(c.ParsedValue())
    && Magnitude(c.ParsedValue()) < Magnitude(c.Parse(min))
  }

  /** The value is a real value strictly above the new, usable `max`. */
  predicate MaxClamps(c: Control, max: Option<string>) {
    && UsableBounds(c, c.min, max)
    && Comparable(c.ParsedValue())
    && Magnitude(c.ParsedValue()) > Magnitude(c.Parse(max))
  }

  /** `handleMinChange`: reacts to `min` becoming `min`, reading the other
      bound from the control. */
  function HandleMinChange(c: Control, min: Option<string>): (r: Effect)
    ensures r.control == c.(value := r.control.value)
    ensures r.scheduled == if UsableBounds(c, min, c.max) then 1 else 0
    ensures MinClamps(c, min) ==> r.control.value == Render(c.Parse(min))
                                  && r.control.ParsedValue() == c.Parse(min)
    ensures !MinClamps(c, min) ==> r.control == c
  {
    var category := c.Category();
    var parsedValue := c.ParsedValue();
    var parsedMin := c.Parse(min);
    var parsedMax := c.Parse(c.max);
    BoundsUsableIff(category, min, c.max, true);
    if !IsExpectedType(category, parsedMin) || !MinIsLessThanMax(category, parsedMin, parsedMax) then
      Effect(c, 0)
    else if Less(parsedValue, parsedMin) then
      ParseRender(category, parsedMin);
      Effect(c.(value := Render(parsedMin)), 1)
    else
      Effect(c, 1)
  }

  /** `handleMaxChange`: reacts to `max` becoming `max`, reading the other
      bound from the control. */
  function HandleMaxChange(c: Control, max: Option<string>): (r: Effect)
    ensures r.control == c.(value := r.control.value)
    ensures r.scheduled == if UsableBounds(c, c.min, max) then 1 else 0
    ensures MaxClamps(c, max) ==> r.control.value == Render(c.Parse(max))
                                  && r.control.ParsedValue() == c.Parse(max)
    ensures !MaxClamps(c, max) ==> r.control == c
  {
    var category := c.Category();
    var parsedValue := c.ParsedValue();
    var parsedMax := c.Parse(max);
    var parsedMin := c.Parse(c.min);
    BoundsUsableIff(category, c.min, max, false);
    if !IsExpectedType(category, parsedMax) || !MinIsLessThanMax(category, parsedMin, parsedMax) then
      Effect(c, 0)
    else if Greater(parsedValue, parsedMax) then
      ParseRender(category, parsedMax);
      Effect(c.(value := Render(parsedMax)), 1)
    else
      Effect(c, 1)
  }

  /** The guard of a `min` change as the fallback clauses of
      `minIsLessThanMax` evidently intend it: the new `min` is a real
      value, and it is not above `max` when `max` is real too. */
  predicate IntendedMinUsable(c: Control, min: Option<string>) {
    var lo := c.Parse(min);
    var hi := c.Parse(c.max);
    c.Category() != Other && Comparable(lo) && (Comparable(hi) ==> Magnitude(lo) <= Magnitude(hi))
  }

  /** The guard of a `max` change as the fallback clauses of
      `minIsLessThanMax` evidently intend it. */
  predicate IntendedMaxUsable(c: Control, max: Option<string>) {
    var lo := c.Parse(c.min);
    var hi := c.Parse(max);
    c.Category() != Other && Comparable(hi) && (Comparable(lo) ==> Magnitude(lo) <= Magnitude(hi))
  }

  /** The value is a real value strictly below a `min` the intended guard
      accepts. */
  predicate IntendedMinClamps(c: Control, min: Option<string>) {
    && IntendedMinUsable(c, min)
    && Comparable(c.ParsedValue())
    && Magnitude(c.ParsedValue()) < Magnitude(c.Parse(min))
  }

  /** The value is a real value strictly above a `max` the intended guard
      accepts. */
  predicate IntendedMaxClamps(c: Control, max: Option<string>) {
    && IntendedMaxUsable(c, max)
    && Comparable(c.ParsedValue())
    && Magnitude(c.ParsedValue()) > Magnitude(c.Parse(max))
  }

  /** `handleMinChange` with the type check that rejects NaN and invalid
      dates, so that a missing or invalid `max` no longer blocks it. */
  function HandleMinChangeAsIntended(c: Control, min: Option<string>): (r: Effect)
    ensures r.control == c.(value := r.control.value)
    ensures r.scheduled == if IntendedMinUsable(c, min) then 1 else 0
    ensures IntendedMinClamps(c, min) ==> r.control.value == Render(c.Parse(min))
                                          && r.control.ParsedValue() == c.Parse(min)
    ensures !IntendedMinClamps(c, min) ==> r.control == c
  {
    var category := c.Category();
    var parsedValue := c.ParsedValue();
    var parsedMin := c.Parse(min);
    var parsedMax := c.Parse(c.max);
    IntendedBoundsUsableIff(category, min, c.max, true);
    if !IsRealOfType(category, parsedMin) || !IntendedOrder(category, parsedMin, parsedMax) then
      Effect(c, 0)
    else if Less(parsedValue, parsedMin) then
      ParseRender(category, parsedMin);
      Effect(c.(value := Render(parsedMin)), 1)
    else
      Effect(c, 1)
  }

  /** `handleMaxChange` with the type check that rejects NaN and invalid
      dates, so that a missing or invalid `min` no longer blocks it. */
  function HandleMaxChangeAsIntended(c: Control, max: Option<string>): (r: Effect)
    ensures r.control == c.(value := r.control.value)
    ensures r.scheduled == if IntendedMaxUsable(c, max) then 1 else 0
    ensures IntendedMaxClamps(c, max) ==> r.control.value == Render(c.Parse(max))
                                          && r.control.ParsedValue() == c.Parse(max)
    ensures !IntendedMaxClamps(c, max) ==> r.control == c
  {
    var category := c.Category();
    var parsedValue := c.ParsedValue();
    var parsedMax := c.Parse(max);
    var parsedMin := c.Parse(c.min);
    IntendedBoundsUsableIff(category, c.min, max, false);
    if !IsRealOfType(category, parsedMax) || !IntendedOrder(category, parsedMin, parsedMax) then
      Effect(c, 0)
    else if Greater(parsedValue, parsedMax) then
      ParseRender(category, parsedMax);
      Effect(c.(value := Render(parsedMax)), 1)
    else
      Effect(c, 1)
  }

  /** The end index `String.prototype.slice(0, end)` uses on a string of
      length `len`: NaN counts as 0, a negative end counts from the back,
      and the result is kept within `0 .. len`. */
  function SliceEnd(len: nat, end: Value): (k: nat)
    requires end.Num? || end.NaN?
    ensures k <= len
    ensures end.NaN? ==> k == 0
    ensures end.Num? && end.n < 0 ==> k == len + end.n || (k == 0 && len + end.n < 0)
    ensures end.Num? && end.n >= 0 ==> k == end.n || (k == len && len < end.n)
  {
    match end
    case NaN => 0
    case Num(n) =>
      if n < 0 then (if len + n < 0 then 0 else len + n)
      else if n < len then n
      else len
  }

  /** `handleMaxlengthChange`: reacts to `maxlength` becoming `maxlength`.
      The attribute must be present: the source calls `trim` on it. */
  function HandleMaxlengthChange(c: Control, maxlength: string): (r: Effect)
    ensures r.control == c.(value := r.control.value)
    ensures r.scheduled == if AllWhitespace(maxlength) || ParseNumber(maxlength).NaN? then 0 else 1
    ensures r.scheduled == 0 ==> r.control == c
    ensures r.control.value <= c.value
    ensures r.scheduled == 1 && ParseNumber(maxlength).n >= 0 ==>
              |r.control.value| == if |c.value| <= ParseNumber(maxlength).n then |c.value|
                                   else ParseNumber(maxlength).n
    ensures r.scheduled == 1 && ParseNumber(maxlength).n < 0 ==>
              |r.control.value| == if |c.value| + ParseNumber(maxlength).n < 0 then 0
                                   else |c.value| + ParseNumber(maxlength).n
  {
    var value := c.value;
    var parsedMaxlength := ParseAsNumber(maxlength);
    if parsedMaxlength.NaN? then
      Effect(c, 0)
    else if |value| > parsedMaxlength.n then
      Effect(c.(value := value[..SliceEnd(|value|, ParseNumber(maxlength))]), 1)
    else
      Effect(c, 1)
  }

  /** The three bound attributes a watcher can observe. */
  datatype Bound = MinBound | MaxBound | MaxlengthBound

  /** `link`'s watch selection: numeric and date-like controls watch `min`
      and `max`, every other control watches `maxlength`. */
  predicate Watches(category: Category, b: Bound) {
    match b
    case MinBound => category != Other
    case MaxBound => category != Other
    case MaxlengthBound => category == Other
  }

  function Attribute(c: Control, b: Bound): Option<string> {
    match b
    case MinBound => c.min
    case MaxBound => c.max
    case MaxlengthBound => c.maxlength
  }

  function WithAttribute(c: Control, b: Bound, a: Option<string>): (r: Control)
    ensures Attribute(r, b) == a
    ensures r.kind == c.kind && r.value == c.value
    ensures forall b' :: b' != b ==> Attribute(r, b') == Attribute(c, b')
  {
    match b
    case MinBound => c.(min := a)
    case MaxBound => c.(max := a)
    case MaxlengthBound => c.(maxlength := a)
  }

  /** The watcher's listener for bound `b`, called with the attribute's
      current value. */
  function Listener(c: Control, b: Bound): (r: Effect)
    requires b == MaxlengthBound ==> c.maxlength.Some?
    ensures r.scheduled <= 1
    ensures r.control == c.(value := r.control.value)
  {
    match b
    case MinBound => HandleMinChange(c, c.min)
    case MaxBound => HandleMaxChange(c, c.max)
    case MaxlengthBound => HandleMaxlengthChange(c, c.maxlength.value)
  }

  /** The directive attached to one control, with the number of deferred
      change notifications scheduled so far. */
  datatype Adjuster = Adjuster(control: Control, pending: nat)

  /** `link` followed by the first digest, which calls every registered
      listener once with the attribute's current value, in registration
      order. A text-like control needs a `maxlength` attribute: the source
      calls `trim` on it. */
  function Attach(c: Control): (r: Adjuster)
    requires c.Category() == Other ==> c.maxlength.Some?
    ensures r.control == c.(value := r.control.value)
    ensures r.pending <= 2 && (c.Category() == Other ==> r.pending <= 1)
    ensures c.Category() != Other ==>
              var first := HandleMinChange(c, c.min);
              var second := HandleMaxChange(first.control, c.max);
              r == Adjuster(second.control, first.scheduled + second.scheduled)
    ensures c.Category() == Other ==>
              var e := HandleMaxlengthChange(c, c.maxlength.value);
              r == Adjuster(e.control, e.scheduled)
  {
    if c.Category() != Other then
      var afterMin := Listener(c, MinBound);
      var afterMax := Listener(afterMin.control, MaxBound);
      Adjuster(afterMax.control, afterMin.scheduled + afterMax.scheduled)
    else
      var e := Listener(c, MaxlengthBound);
      Adjuster(e.control, e.scheduled)
  }

  /** Bound `b` changes to `a` and the next digest runs: a watched
      attribute whose value differs from the last one seen has its
      listener called. */
  function ChangeAttribute(s: Adjuster, b: Bound, a: Option<string>): (r: Adjuster)
    requires Watches(s.control.Category(), b) && a != Attribute(s.control, b) && b == MaxlengthBound
             ==> a.Some?
    ensures r.control == WithAttribute(s.control, b, a).(value := r.control.value)
    ensures s.pending <= r.pending <= s.pending + 1
    ensures !Watches(s.control.Category(), b) || a == Attribute(s.control, b)
            ==> r == Adjuster(WithAttribute(s.control, b, a), s.pending)
    ensures var c := WithAttribute(s.control, b, a);
            b == MinBound && s.control.Category() != Other && a != s.control.min ==>
              r == Adjuster(HandleMinChange(c, a).control, s.pending + HandleMinChange(c, a).scheduled)
    ensures var c := WithAttribute(s.control, b, a);
            b == MaxBound && s.control.Category() != Other && a != s.control.max ==>
              r == Adjuster(HandleMaxChange(c, a).control, s.pending + HandleMaxChange(c, a).scheduled)
    ensures var c := WithAttribute(s.control, b, a);
            b == MaxlengthBound && s.control.Category() == Other && a != s.control.maxlength ==>
              r == Adjuster(HandleMaxlengthChange(c, a.value).control,
                            s.pending + HandleMaxlengthChange(c, a.value).scheduled)
  {
    var c := WithAttribute(s.control, b, a);
    if Watches(s.control.Category(), b) && a != Attribute(s.control, b) then
      var e := Listener(c, b);
      Adjuster(e.control, s.pending + e.scheduled)
    else
      Adjuster(c, s.pending)
  }

  /** The listener for bound `b` if its attribute changed from `seen` to a
      value the control now holds, and nothing otherwise. */
  function OnChange(c: Control, b: Bound, seen: Option<string>): (r: Effect)
    requires b == MaxlengthBound && Attribute(c, b) != seen ==> c.maxlength.Some?
    ensures r.control == c.(value := r.control.value)
    ensures r.scheduled <= 1
    ensures Attribute(c, b) == seen ==> r == Effect(c, 0)
  {
    if Attribute(c, b) != seen then Listener(c, b) else Effect(c, 0)
  }

  /** Several bound attributes change before the next digest runs: all
      three take their new values first, then each watched attribute whose
      value differs from the last one seen has its listener called, in
      registration order, so the `min` listener already reads the new
      `max`. */
  function Digest(s: Adjuster, min: Option<string>, max: Option<string>, maxlength: Option<string>): (r: Adjuster)
    requires s.control.Category() == Other && maxlength != s.control.maxlength ==> maxlength.Some?
    ensures r.control == s.control.(min := min, max := max, maxlength := maxlength, value := r.control.value)
    ensures s.pending <= r.pending <= s.pending + 2
    ensures s.control.Category() == Other ==> r.pending <= s.pending + 1
    ensures var c := s.control.(min := min, max := max, maxlength := maxlength);
            var first := HandleMinChange(c, min);
            var second := HandleMaxChange(first.control, max);
            s.control.Category() != Other && min != s.control.min && max != s.control.max ==>
              r == Adjuster(second.control, s.pending + first.scheduled + second.scheduled)
    ensures var c := s.control.(min := min, max := max, maxlength := maxlength);
            s.control.Category() != Other && min != s.control.min && max == s.control.max ==>
              r == Adjuster(HandleMinChange(c, min).control, s.pending + HandleMinChange(c, min).scheduled)
    ensures var c := s.control.(min := min, max := max, maxlength := maxlength);
            s.control.Category() != Other && min == s.control.min && max != s.control.max ==>
              r == Adjuster(HandleMaxChange(c, max).control, s.pending + HandleMaxChange(c, max).scheduled)
    ensures var c := s.control.(min := min, max := max, maxlength := maxlength);
            s.control.Category() == Other && maxlength != s.control.maxlength ==>
              r == Adjuster(HandleMaxlengthChange(c, maxlength.value).control,
                            s.pending + HandleMaxlengthChange(c, maxlength.value).scheduled)
    ensures var c := s.control.(min := min, max := max, maxlength := maxlength);
            (if s.control.Category() == Other then maxlength == s.control.maxlength
             else min == s.control.min && max == s.control.max) ==>
              r == Adjuster(c, s.pending)
  {
    var c := s.control.(min := min, max := max, maxlength := maxlength);
    if c.Category() != Other then
      var afterMin := OnChange(c, MinBound, s.control.min);
      var afterMax := OnChange(afterMin.control, MaxBound, s.control.max);
      Adjuster(afterMax.control, s.pending + afterMin.scheduled + afterMax.scheduled)
    else
      var e := OnChange(c, MaxlengthBound, s.control.maxlength);
      Adjuster(e.control, s.pending + e.scheduled)
  }
}

=== FILE: calendar.dfy ===
/**
 The proleptic Gregorian calendar that ECMAScript `Date` values use, for the
 four-digit years 0000 to 9999 that the date-only string format can name.
 A calendar date corresponds to a day number: days since 1970-01-01, the
 day part of a time value.
 */
module Calendar {

  datatype CalendarDate = CalendarDate(year: int, month: int, day: int) {
    /** A real date with a four-digit year. */
    predicate Valid() {
      && 0 <= year <= MaxYear
      && 1 <= month <= 12
      && 1 <= day <= DaysInMonth(year, month)
    }
  }

  const MaxYear: int := 9999

  predicate IsLeapYear(y: int) {
    y % 4 == 0 && (y % 100 != 0 || y % 400 == 0)
  }

  function DaysInYear(y: int): int {
    if IsLeapYear(y) then 366 else 365
  }

  function DaysInMonth(y: int, m: int): (n: int)
    requires 1 <= m <= 12
    ensures 28 <= n <= 31
  {
    if m == 2 then (if IsLeapYear(y) then 29 else 28)
    else if m == 4 || m == 6 || m == 9 || m == 11 then 30
    else 31
  }

  /** Days in the months of year `y` before month `m`; month 13 stands for
      the end of the year. */
  function DaysBeforeMonth(y: int, m: int): (n: int)
    requires 1 <= m <= 13
    ensures 0 <= n <= DaysInYear(y)
    ensures m == 13 ==> n == DaysInYear(y)
  {
    var common := [0, 31, 59, 90, 120, 151, 181, 212, 243, 273, 304, 334, 365];
    common[m - 1] + (if m > 2 && IsLeapYear(y) then 1 else 0)
  }

  /** Month `m` is the gap between the days before it and the days before
      the next month. */
  lemma DaysBeforeNextMonth(y: int, m: int)
    requires 1 <= m <= 12
    ensures DaysBeforeMonth(y, m + 1) == DaysBeforeMonth(y, m) + DaysInMonth(y, m)
  {
  }

  lemma {:induction false} DaysBeforeMonthMonotone(y: int, m: int, m': int)
    requires 1 <= m <= m' <= 13
    ensures DaysBeforeMonth(y, m) <= DaysBeforeMonth(y, m')
    decreases m' - m
  {
    if m < m' {
      DaysBeforeMonthMonotone(y, m, m' - 1);
      DaysBeforeNextMonth(y, m' - 1);
    }
  }

  /** Days from 0000-01-01 to the first day of year `y`. */
  function DaysBeforeYear(y: nat): nat {
    if y == 0 then 0 else DaysBeforeYear(y - 1) + DaysInYear(y - 1)
  }

  /** The closed form of `DaysBeforeYear`: 365 per year plus one for each
      leap year among 0 .. y - 1 (multiples of 4, less multiples of 100,
      plus multiples of 400, year 0 included). */
  function LeapDayCount(y: nat): int {
    365 * y + (y + 3) / 4 - (y + 99) / 100 + (y + 399) / 400
  }

  lemma {:induction false} DaysBeforeYearClosedForm(y: nat)
    ensures DaysBeforeYear(y) == LeapDayCount(y)
  {
    if y > 0 {
      DaysBeforeYearClosedForm(y - 1);
      LeapDayCountStep(y - 1);
    }
  }

  /** Each of the three leap-year counts steps up by one exactly at a
      multiple of its divisor. */
  lemma CountStep4(y: nat)
    ensures (y + 4) / 4 - (y + 3) / 4 == if y % 4 == 0 then 1 else 0
  {
  }

  lemma CountStep100(y: nat)
    ensures (y + 100) / 100 - (y + 99) / 100 == if y % 100 == 0 then 1 else 0
  {
  }

  lemma CountStep400(y: nat)
    ensures (y + 400) / 400 - (y + 399) / 400 == if y % 400 == 0 then 1 else 0
  {
  }

  /** The closed form grows by `DaysInYear` from one year to the next. */
  lemma LeapDayCountStep(y: nat)
    ensures LeapDayCount(y + 1) == LeapDayCount(y) + DaysInYear(y)
  {
    CountStep4(y);
    CountStep100(y);
    CountStep400(y);
    DivisorsNest(y);
    var leaps := (y + 4) / 4 - (y + 3) / 4 - ((y + 100) / 100 - (y + 99) / 100)
                 + ((y + 400) / 400 - (y + 399) / 400);
    assert LeapDayCount(y + 1) == LeapDayCount(y) + 365 + leaps;
    assert leaps == if IsLeapYear(y) then 1 else 0;
  }

  /** Consecutive years are `DaysInYear` apart. */
  lemma DaysBeforeNextYear(y: nat)
    ensures DaysBeforeYear(y + 1) == DaysBeforeYear(y) + DaysInYear(y)
  {
  }

  /** A multiple of 400 is a multiple of 100, which is a multiple of 4. */
  lemma DivisorsNest(y: nat)
    ensures y % 400 == 0 ==> y % 100 == 0
    ensures y % 100 == 0 ==> y % 4 == 0
  {
    if y % 400 == 0 {
      assert y == 100 * (4 * (y / 400));
    }
    if y % 100 == 0 {
      assert y == 4 * (25 * (y / 100));
    }
  }

  lemma {:induction false} DaysBeforeYearMonotone(y: nat, y': nat)
    requires y <= y'
    ensures DaysBeforeYear(y) <= DaysBeforeYear(y')
    decreases y' - y
  {
    if y < y' {
      DaysBeforeYearMonotone(y, y' - 1);
      DaysBeforeNextYear(y' - 1);
    }
  }

  /** Day number of 1970-01-01 counted from 0000-01-01. */
  const UnixEpoch: int := 719528

  /** The first and last day numbers of four-digit years. */
  const MinDay: int := -UnixEpoch
  const MaxDay: int := DaysBeforeYear(MaxYear + 1) - 1 - UnixEpoch

  predicate InDateRange(n: int) {
    MinDay <= n <= MaxDay
  }

  lemma EpochIsDay1970()
    ensures DaysBeforeYear(1970) == UnixEpoch
  {
    DaysBeforeYearClosedForm(1970);
  }

  /** ECMAScript's MakeDay for a date-only value: days since 1970-01-01. */
  function DayNumber(date: CalendarDate): (n: int)
    requires date.Valid()
    ensures InDateRange(n)
  {
    var y := date.year;
    DaysBeforeNextYear(y);
    DaysBeforeYearMonotone(y + 1, MaxYear + 1);
    DaysBeforeNextMonth(y, date.month);
    DaysBeforeMonthMonotone(y, date.month + 1, 13);
    DaysBeforeYear(y) + DaysBeforeMonth(y, date.month) + date.day - 1 - UnixEpoch
  }

  /** The year holding day `k` (counted from 0000-01-01), searching upwards
      from year `y`. */
  function YearFrom(k: nat, y: nat): (r: nat)
    requires DaysBeforeYear(y) <= k
    ensures y <= r && DaysBeforeYear(r) <= k < DaysBeforeYear(r + 1)
    decreases k - DaysBeforeYear(y)
  {
    DaysBeforeNextYear(y);
    if k < DaysBeforeYear(y + 1) then y else YearFrom(k, y + 1)
  }

  /** The year holding day `k` (counted from 0000-01-01). The search starts
      one year below the estimate 400 k / 146097 (a 400-year cycle has
      146097 days), which is never past the answer. */
  function YearOf(k: nat): (r: nat)
    ensures DaysBeforeYear(r) <= k < DaysBeforeYear(r + 1)
  {
    var estimate := 400 * k / 146097;
    var start := if estimate == 0 then 0 else estimate - 1;
    EstimateBelow(k, start);
    YearFrom(k, start)
  }

  /** 400 times the days before year `y` exceed 146097 y by at most 699. */
  lemma DaysBeforeYearUpper(y: nat)
    ensures 400 * DaysBeforeYear(y) <= 146097 * y + 699
  {
    DaysBeforeYearClosedForm(y);
    assert 4 * ((y + 3) / 4) <= y + 3;
    assert 100 * ((y + 99) / 100) >= y;
    assert 400 * ((y + 399) / 400) <= y + 399;
  }

  lemma EstimateBelow(k: nat, start: nat)
    requires var estimate := 400 * k / 146097;
             start == if estimate == 0 then 0 else estimate - 1
    ensures DaysBeforeYear(start) <= k
  {
    var estimate := 400 * k / 146097;
    if estimate > 0 {
      DaysBeforeYearUpper(start);
      assert 146097 * estimate <= 400 * k;
    }
  }

  /** The month holding day `k` of year `y` (counted from its 1 January),
      searching from `m`. */
  function MonthOf(y: int, k: int, m: int): (r: int)
    requires 1 <= m <= 12
    requires DaysBeforeMonth(y, m) <= k < DaysBeforeMonth(y, 13)
    ensures m <= r <= 12 && DaysBeforeMonth(y, r) <= k < DaysBeforeMonth(y, r + 1)
    decreases 12 - m
  {
    DaysBeforeNextMonth(y, m);
    if k < DaysBeforeMonth(y, m + 1) then m else MonthOf(y, k, m + 1)
  }

  /** The calendar date of a day number: the inverse of `DayNumber`. */
  function DateOfDay(n: int): (date: CalendarDate)
    requires InDateRange(n)
    ensures date.Valid() && DayNumber(date) == n
  {
    var k := n + UnixEpoch;
    var y := YearOf(k);
    YearBelowLimit(k, y);
    DaysBeforeNextYear(y);
    var m := MonthOf(y, k - DaysBeforeYear(y), 1);
    DaysBeforeNextMonth(y, m);
    CalendarDate(y, m, k - DaysBeforeYear(y) - DaysBeforeMonth(y, m) + 1)
  }

  lemma YearBelowLimit(k: nat, y: nat)
    requires DaysBeforeYear(y) <= k < DaysBeforeYear(MaxYear + 1)
    ensures y <= MaxYear
  {
    if MaxYear < y {
      DaysBeforeYearMonotone(MaxYear + 1, y);
    }
  }

  /** Distinct dates have distinct day numbers, so `DateOfDay` recovers
      the date `DayNumber` was given. */
  lemma DateOfDayNumber(date: CalendarDate)
    requires date.Valid()
    ensures DateOfDay(DayNumber(date)) == date
  {
    var n := DayNumber(date);
    var d := DateOfDay(n);
    DayNumberInjective(date, d);
  }

  lemma DayNumberInjective(a: CalendarDate, b: CalendarDate)
    requires a.Valid() && b.Valid() && DayNumber(a) == DayNumber(b)
    ensures a == b
  {
    BeforeSmaller(a, b);
    BeforeSmaller(b, a);
  }

  /** Calendar order: by year, then month, then day. */
  predicate Before(a: CalendarDate, b: CalendarDate) {
    || a.year < b.year
    || (a.year == b.year && a.month < b.month)
    || (a.year == b.year && a.month == b.month && a.day < b.day)
  }

  /** Day numbers follow calendar order, so comparing two `Date` values
      compares the dates they hold. */
  lemma DayNumberOrder(a: CalendarDate, b: CalendarDate)
    requires a.Valid() && b.Valid()
    ensures Before(a, b) <==> DayNumber(a) < DayNumber(b)
  {
    BeforeSmaller(a, b);
    BeforeSmaller(b, a);
  }

  lemma BeforeSmaller(a: CalendarDate, b: CalendarDate)
    requires a.Valid() && b.Valid()
    ensures Before(a, b) ==> DayNumber(a) < DayNumber(b)
  {
    EarlierYearSmaller(a, b);
    EarlierMonthSmaller(a, b);
  }

  lemma EarlierYearSmaller(a: CalendarDate, b: CalendarDate)
    requires a.Valid() && b.Valid()
    ensures a.year < b.year ==> DayNumber(a) < DayNumber(b)
  {
    YearOfDayNumber(a);
    YearOfDayNumber(b);
    YearsDisjoint(a.year, b.year);
  }

  lemma EarlierMonthSmaller(a: CalendarDate, b: CalendarDate)
    requires a.Valid() && b.Valid()
    ensures a.year == b.year && a.month < b.month ==> DayNumber(a) < DayNumber(b)
  {
    MonthOfDayNumber(a);
    MonthOfDayNumber(b);
    MonthsDisjoint(a.year, a.month, b.month);
  }

  lemma YearsDisjoint(y: nat, y': nat)
    ensures y < y' ==> DaysBeforeYear(y + 1) <= DaysBeforeYear(y')
  {
    if y < y' {
      DaysBeforeYearMonotone(y + 1, y');
    }
  }

  /** An earlier month ends no later than a later one begins. */
  lemma MonthsDisjoint(y: int, m: int, m': int)
    requires 1 <= m <= 12 && 1 <= m' <= 12
    ensures m < m' ==> DaysBeforeMonth(y, m + 1) <= DaysBeforeMonth(y, m')
  {
    if m < m' {
      DaysBeforeMonthMonotone(y, m + 1, m');
    }
  }

  /** The day number of a date lies within its year ... */
  lemma YearOfDayNumber(a: CalendarDate)
    requires a.Valid()
    ensures var k := DayNumber(a) + UnixEpoch;
      DaysBeforeYear(a.year) <= k < DaysBeforeYear(a.year + 1)
  {
    DaysBeforeNextYear(a.year);
    DaysBeforeNextMonth(a.year, a.month);
    DaysBeforeMonthMonotone(a.year, a.month + 1, 13);
  }

  /** ... and within its month. */
  lemma MonthOfDayNumber(a: CalendarDate)
    requires a.Valid()
    ensures var k := DayNumber(a) + UnixEpoch - DaysBeforeYear(a.year);
      DaysBeforeMonth(a.year, a.month) <= k < DaysBeforeMonth(a.year, a.month + 1)
  {
    DaysBeforeNextMonth(a.year, a.month);
  }
}

=== FILE: input_type.dfy ===
/**
 How the directive reads an `<input>` according to its `type` attribute:
 the category the type falls into, how attribute and value strings are
 parsed for that category, the type check and order check that guard
 clamping, and how a parsed bound is written back as the control's value.
 */
module InputType {
  import opened Wrappers
  import opened JsValue
  import opened Calendar
  import opened JsNumber
  import opened JsDate

  /** `Numeric` covers the `number` and `range` input types, `Date` the
      `date`, `month` and `datetime-local` types; every other type is
      `Other`, whose only bound is `maxlength`. */
  datatype Category = Numeric | Date | Other

  predicate StartsWith(s: string, prefix: string) {
    |prefix| <= |s| && s[..|prefix|] == prefix
  }

  /** The `numericTypeRegex` test `/^(number|range)/`. */
  predicate IsNumericType(kind: string) {
    StartsWith(kind, "number") || StartsWith(kind, "range")
  }

  /** The `dateTypeRegex` test `/^(date|month)/`. */
  predicate IsDateType(kind: string) {
    StartsWith(kind, "date") || StartsWith(kind, "month")
  }

  /** The category of a `type` attribute; the numeric test comes first. */
  function Classify(kind: string): (c: Category)
    ensures c == Numeric <==> IsNumericType(kind)
    ensures c == Date <==> !IsNumericType(kind) && IsDateType(kind)
    ensures c == Other <==> !IsNumericType(kind) && !IsDateType(kind)
  {
    if IsNumericType(kind) then Numeric
    else if IsDateType(kind) then Date
    else Other
  }

  /** A type that starts with none of the letters the two patterns start
      with is `Other`. */
  lemma OtherByFirstLetter(kind: string)
    requires kind == [] || kind[0] !in "nrdm"
    ensures Classify(kind) == Other
  {
    if kind != [] {
      FirstLetterDiffers(kind, "number");
      FirstLetterDiffers(kind, "range");
      FirstLetterDiffers(kind, "date");
      FirstLetterDiffers(kind, "month");
    }
  }

  lemma FirstLetterDiffers(s: string, prefix: string)
    requires s != [] && prefix != []
    ensures s[0] != prefix[0] ==> !StartsWith(s, prefix)
  {
    if |prefix| <= |s| {
      assert s[..|prefix|][0] == s[0];
    }
  }

  /** The input types of the HTML Living Standard, section 4.10.5, fall into
      the categories their `min`, `max` and `maxlength` attributes suggest. */
  lemma ClassifyInputTypes()
    ensures Classify("number") == Numeric && Classify("range") == Numeric
    ensures Classify("date") == Date && Classify("month") == Date
    ensures Classify("datetime-local") == Date
    ensures forall kind :: kind in ["text", "search", "url", "tel", "email", "password",
                                    "week", "time", "color", "checkbox", "hidden"]
                           ==> Classify(kind) == Other
  {
    FirstLetterDiffers("month", "number");
    FirstLetterDiffers("month", "range");
    FirstLetterDiffers("date", "number");
    FirstLetterDiffers("date", "range");
    FirstLetterDiffers("datetime-local", "number");
    FirstLetterDiffers("datetime-local", "range");
    assert "datetime-local"[..4] == "date";
    forall kind | kind in ["text", "search", "url", "tel", "email", "password",
                           "week", "time", "color", "checkbox", "hidden"]
      ensures Classify(kind) == Other
    {
      OtherByFirstLetter(kind);
    }
  }

  /** `parseAsInputType`: `Number(s)` for a numeric control, `new Date(s)`
      for a date control, `null` otherwise; an absent attribute is passed
      as `undefined`. */
  function ParseAsInputType(category: Category, a: Option<string>): (v: Value)
    ensures category == Numeric ==> (v.Num? || v.NaN?) && (a.None? ==> v.NaN?)
    ensures category == Date ==> (v.Day? || v.InvalidDate?) && (a.None? ==> v.InvalidDate?)
    ensures v.Day? ==> InDateRange(v.days)
    ensures category == Other <==> v.Null?
  {
    match category
    case Numeric => ParseOptionalNumber(a)
    case Date => ParseOptionalDate(a)
    case Other => Null
  }

  /** `parsedValueIsExpectedType`: a `typeof` check for numbers and a class
      check for dates, so NaN and an invalid date pass it. */
  predicate IsExpectedType(category: Category, v: Value) {
    match category
    case Numeric => v.Num? || v.NaN?
    case Date => v.Day? || v.InvalidDate?
    case Other => false
  }

  /** `minIsLessThanMax`: the bounds are in order, or one of them is not of
      the category's type. */
  predicate MinIsLessThanMax(category: Category, min: Value, max: Value) {
    || LessOrEqual(min, max)
    || !IsExpectedType(category, min)
    || !IsExpectedType(category, max)
  }

  /** The guard a bound handler passes before it may clamp: the changed
      bound has the expected type and the two bounds are in order. */
  predicate BoundsUsable(category: Category, changed: Value, min: Value, max: Value) {
    IsExpectedType(category, changed) && MinIsLessThanMax(category, min, max)
  }

  /** For values the parser produces, the guard holds exactly when the
      control is numeric or date-like and both bounds are real, ordered
      values: the type check never rejects NaN or an invalid date, so its
      fallback never rescues an unusable bound. */
  lemma BoundsUsableIff(category: Category, a: Option<string>, b: Option<string>, changed: bool)
    ensures var min := ParseAsInputType(category, a);
            var max := ParseAsInputType(category, b);
            BoundsUsable(category, if changed then min else max, min, max)
            <==> category != Other && Comparable(min) && Comparable(max)
                 && NumericValue(min).value <= NumericValue(max).value
  {
  }

  /** The type check as the fallback clauses of `minIsLessThanMax`
      evidently intend it: a real number or a real date, so NaN and an
      invalid date fail it. */
  predicate IsRealOfType(category: Category, v: Value) {
    match category
    case Numeric => v.Num?
    case Date => v.Day?
    case Other => false
  }

  /** The order check with the intended type check: the bounds are in
      order, or one of them is not a real value, so an invalid bound never
      blocks the other. */
  predicate IntendedOrder(category: Category, min: Value, max: Value) {
    || LessOrEqual(min, max)
    || !IsRealOfType(category, min)
    || !IsRealOfType(category, max)
  }

  /** With the intended type check the guard passes exactly when the
      changed bound is a real value of a numeric or date-like control and
      the two bounds are in order whenever the other one is real too. */
  lemma IntendedBoundsUsableIff(category: Category, a: Option<string>, b: Option<string>, changed: bool)
    ensures var min := ParseAsInputType(category, a);
            var max := ParseAsInputType(category, b);
            var bound := if changed then min else max;
            var other := if changed then max else min;
            IsRealOfType(category, bound) && IntendedOrder(category, min, max)
            <==> category != Other && Comparable(bound)
                 && (Comparable(other) ==> NumericValue(min).value <= NumericValue(max).value)
  {
  }

  /** What `element.val(bound)` stores for a parsed bound: `String(n)` for a
      number, `YYYY-MM-DD` for a date. */
  function Render(v: Value): (s: string)
    requires v.Num? || (v.Day? && InDateRange(v.days))
    ensures v.Num? ==> ParseNumber(s) == v
    ensures v.Day? ==> ParseDate(s) == v
  {
    match v
    case Num(n) =>
      ParseFormatNumber(n);
      FormatNumber(n)
    case Day(days) => FormatDate(days)
  }

  /** Parsing a written-back bound as the control's category yields the
      bound again. */
  lemma ParseRender(category: Category, v: Value)
    requires category != Other && Comparable(v)
    requires IsExpectedType(category, v) && (v.Day? ==> InDateRange(v.days))
    ensures ParseAsInputType(category, Some(Render(v))) == v
  {
  }
}

=== FILE: js_date.dfy ===
/**
 `new Date(s)` for the date-only forms of ECMAScript's Date Time String
 Format (`YYYY`, `YYYY-MM`, `YYYY-MM-DD`, read as midnight UTC), and the
 directive's `dateObjectToHtmlInputValue`, which writes a date back as the
 first ten characters of `toISOString()`.
 */
module JsDate {
  import opened Text
  import opened Wrappers
  import opened JsValue
  import opened Calendar

  /** Reads the calendar date a date-only string names. A missing month or
      day is 01; an out-of-range month or day is no date at all. */
  function ParseDateOnly(s: string): (r: Option<CalendarDate>)
    ensures r.Some? ==> r.value.Valid()
  {
    if |s| == 4 && AllDigits(s) then
      DecimalValueBound(s);
      Some(CalendarDate(DecimalValue(s), 1, 1))
    else if |s| == 7 && AllDigits(s[..4]) && s[4] == '-' && AllDigits(s[5..]) then
      DecimalValueBound(s[..4]);
      var month := DecimalValue(s[5..]);
      if 1 <= month <= 12 then Some(CalendarDate(DecimalValue(s[..4]), month, 1)) else None
    else if |s| == 10 && AllDigits(s[..4]) && s[4] == '-' && AllDigits(s[5..7])
            && s[7] == '-' && AllDigits(s[8..]) then
      DecimalValueBound(s[..4]);
      var date := CalendarDate(DecimalValue(s[..4]), DecimalValue(s[5..7]), DecimalValue(s[8..]));
      if 1 <= date.month <= 12 && 1 <= date.day <= DaysInMonth(date.year, date.month) then Some(date)
      else None
    else
      None
  }

  /** `new Date(s)`: a valid date at midnight UTC, or an invalid date. */
  function ParseDate(s: string): (r: Value)
    ensures r.Day? || r.InvalidDate?
    ensures r.Day? ==> InDateRange(r.days)
    ensures r.Day? ==> |s| == 4 || |s| == 7 || |s| == 10
  {
    match ParseDateOnly(s)
    case Some(date) => Day(DayNumber(date))
    case None => InvalidDate
  }

  /** `new Date(undefined)`: an absent attribute is an invalid date. */
  function ParseOptionalDate(a: Option<string>): (r: Value)
    ensures r.Day? || r.InvalidDate?
    ensures r.Day? ==> InDateRange(r.days)
    ensures a.None? ==> r.InvalidDate?
  {
    match a
    case None => InvalidDate
    case Some(s) => ParseDate(s)
  }

  /** `YYYY-MM-DD` for a valid date. */
  function FormatCalendarDate(date: CalendarDate): (r: string)
    requires date.Valid()
    ensures |r| == 10
  {
    FixedDecimal(date.year, 4) + "-" + FixedDecimal(date.month, 2) + "-" + FixedDecimal(date.day, 2)
  }

  /** `dateObjectToHtmlInputValue`: `toISOString().substring(0, 10)` of the
      date with day number `n`, i.e. its `YYYY-MM-DD` part. */
  function FormatDate(n: int): (r: string)
    requires InDateRange(n)
    ensures |r| == 10
    ensures ParseDate(r) == Day(n)
  {
    var date := DateOfDay(n);
    ParseFormatCalendarDate(date);
    FormatCalendarDate(date)
  }

  /** Writing a date as `YYYY-MM-DD` and reading it again gives the date back. */
  lemma ParseFormatCalendarDate(date: CalendarDate)
    requires date.Valid()
    ensures ParseDateOnly(FormatCalendarDate(date)) == Some(date)
  {
    var y := FixedDecimal(date.year, 4);
    var m := FixedDecimal(date.month, 2);
    var d := FixedDecimal(date.day, 2);
    var s := FormatCalendarDate(date);
    assert s[..4] == y;
    assert s[5..7] == m;
    assert s[8..] == d;
  }

  /** A ten-character date string that reads as a date is exactly how that
      date is written back: the other direction of the round trip. */
  lemma FormatParseCalendarDate(s: string)
    requires |s| == 10 && ParseDateOnly(s).Some?
    ensures FormatCalendarDate(ParseDateOnly(s).value) == s
  {
    FixedDecimalOfValue(s[..4]);
    FixedDecimalOfValue(s[5..7]);
    FixedDecimalOfValue(s[8..]);
    assert s == s[..4] + "-" + s[5..7] + "-" + s[8..];
  }

  /** The date written back for a `YYYY-MM-DD` string that reads as a valid
      date is that same string. */
  lemma FormatParseDate(s: string)
    requires |s| == 10 && ParseDate(s).Day?
    ensures FormatDate(ParseDate(s).days) == s
  {
    var date := ParseDateOnly(s).value;
    DateOfDayNumber(date);
    FormatParseCalendarDate(s);
  }
  /** A `YYYY-MM` string that reads as a date is written back as
      `YYYY-MM-01`. */
  lemma MonthFormWrittenOut(s: string)
    requires |s| == 7 && ParseDateOnly(s).Some?
    ensures FormatCalendarDate(ParseDateOnly(s).value) == s + "-01"
  {
    var date := ParseDateOnly(s).value;
    FixedDecimalOfValue(s[..4]);
    FixedDecimalOfValue(s[5..]);
    FirstDayWritten();
    assert date == CalendarDate(DecimalValue(s[..4]), DecimalValue(s[5..]), 1);
    assert FormatCalendarDate(date) == s[..4] + "-" + s[5..] + "-" + "01";
    assert s == s[..4] + "-" + s[5..];
  }

  lemma FirstDayWritten()
    ensures FixedDecimal(1, 2) == "01"
  {
  }
}

=== FILE: js_number.dfy ===
/**
 String-to-number and number-to-string conversion as the directive uses
 them: `Number(s)` on attribute and control values, `String(n)` when a
 clamped number is written back, and the directive's own `parseAsNumber`
 for `maxlength`. Numbers are the integral ones written in decimal.
 */
module JsNumber {
  import opened Text
  import opened Wrappers
  import opened JsValue

  /** A decimal integer literal: an optional sign, then at least one digit. */
  predicate IsIntegerLiteral(t: string) {
    if t != [] && (t[0] == '-' || t[0] == '+') then |t| > 1 && AllDigits(t[1..])
    else t != [] && AllDigits(t)
  }

  /** An integer literal in the form `String(n)` writes it: no `+` sign, no
      leading zero, and no `-0`. */
  predicate IsCanonicalNumeral(t: string) {
    && IsIntegerLiteral(t)
    && t[0] != '+'
    && t != "-0"
    && (var d := if t[0] == '-' then t[1..] else t; |d| > 1 ==> d[0] != '0')
  }

  /** The integer an integer literal denotes. */
  function IntegerLiteralValue(t: string): int
    requires IsIntegerLiteral(t)
  {
    if t[0] == '-' then -(DecimalValue(t[1..]) as int)
    else if t[0] == '+' then DecimalValue(t[1..])
    else DecimalValue(t)
  }

  /** `Number(s)` for a string: white space around the literal is ignored,
      a blank string is 0, and anything that is not a literal is NaN. */
  function ParseNumber(s: string): (r: Value)
    ensures r.Num? || r.NaN?
    ensures AllWhitespace(s) ==> r == Num(0)
    ensures r.NaN? <==> !AllWhitespace(s) && !IsIntegerLiteral(Trim(s))
  {
    var t := Trim(s);
    if t == [] then Num(0)
    else if IsIntegerLiteral(t) then Num(IntegerLiteralValue(t))
    else NaN
  }

  /** `Number(undefined)`: an absent attribute is NaN. */
  function ParseOptionalNumber(a: Option<string>): (r: Value)
    ensures r.Num? || r.NaN?
    ensures a.None? ==> r.NaN?
  {
    match a
    case None => NaN
    case Some(s) => ParseNumber(s)
  }

  /** `String(n)` for an integer: a minus sign for negatives, then the
      shortest decimal numeral. This is ECMAScript's form only while the
      magnitude is below 10^21; larger doubles are written with an
      exponent. */
  function FormatNumber(n: int): (r: string)
    ensures r != [] && !IsWhitespace(r[0]) && !IsWhitespace(r[|r| - 1])
    ensures IsIntegerLiteral(r) && IntegerLiteralValue(r) == n
    ensures IsCanonicalNumeral(r) && (r[0] == '-' <==> n < 0)
  {
    var d := Decimal(if n < 0 then -n else n);
    DigitIsNotWhitespace(d[0]);
    DigitIsNotWhitespace(d[|d| - 1]);
    if n < 0 then
      var r := "-" + d;
      assert r[1..] == d && r[|r| - 1] == d[|d| - 1];
      r
    else
      d
  }

  /** Writing a number back and reading it again yields the same number. */
  lemma ParseFormatNumber(n: int)
    ensures ParseNumber(FormatNumber(n)) == Num(n)
  {
    TrimIdentity(FormatNumber(n));
  }

  /** `String(n)` is the only canonical numeral of `n`: any literal without
      a `+`, a leading zero or `-0` is what `String` writes for its value. */
  lemma CanonicalNumeralUnique(t: string)
    requires IsCanonicalNumeral(t)
    ensures FormatNumber(IntegerLiteralValue(t)) == t
  {
    if t[0] == '-' {
      var d := t[1..];
      assert t == "-" + d;
      DecimalOfValue(d);
      assert d[0] != '0';
      LeadingDigitPositive(d);
    } else {
      DecimalOfValue(t);
    }
  }

  /** The directive's `parseAsNumber`: like `Number(s)`, except that a blank
      string is NaN rather than 0. */
  function ParseAsNumber(s: string): (r: Value)
    ensures r.Num? || r.NaN?
    ensures r.NaN? <==> AllWhitespace(s) || ParseNumber(s).NaN?
    ensures r.Num? ==> r == ParseNumber(s)
  {
    if Trim(s) == [] then NaN else ParseNumber(s)
  }

  /** A number written back is read by `parseAsNumber` as that number. */
  lemma ParseAsNumberFormat(n: int)
    ensures ParseAsNumber(FormatNumber(n)) == Num(n)
  {
    ParseFormatNumber(n);
  }
}

=== FILE: js_value.dfy ===
/**
 The JavaScript values the directive's parsers produce, and the relational
 operators `<`, `<=` and `>` as the directive applies them to those values.
 */
module JsValue {
  import opened Wrappers

  /** A parsed attribute or control value.
      - `Num(n)`: a number (only integral numbers arise in this model);
      - `NaN`: the number NaN, which `Number(s)` returns for non-numeric text;
      - `Day(days)`: a valid `Date` at midnight UTC, `days` after 1970-01-01;
      - `InvalidDate`: a `Date` object whose time value is NaN;
      - `Null`: `null`, what the parser returns for text-like controls. */
  datatype Value = Num(n: int) | NaN | Day(days: int) | InvalidDate | Null

  /** Milliseconds in a day: a `Date`'s time value is `days * MsPerDay`. */
  const MsPerDay: int := 86400000

  /** The number a relational operator compares: ToPrimitive with hint
      "number" (a `Date`'s time value), then ToNumber (`null` is 0).
      `None` stands for NaN. */
  function NumericValue(v: Value): (r: Option<int>)
    ensures r.None? <==> (v.NaN? || v.InvalidDate?)
  {
    match v
    case Num(n) => Some(n)
    case NaN => None
    case Day(days) => Some(days * MsPerDay)
    case InvalidDate => None
    case Null => Some(0)
  }

  /** Whether `v` takes part in ordered comparisons at all. */
  predicate Comparable(v: Value) {
    NumericValue(v).Some?
  }

  /** JavaScript `a < b`: false whenever either side is NaN. */
  predicate Less(a: Value, b: Value) {
    Comparable(a) && Comparable(b) && NumericValue(a).value < NumericValue(b).value
  }

  /** JavaScript `a <= b`: false whenever either side is NaN, so it is not
      the negation of `b < a`. */
  predicate LessOrEqual(a: Value, b: Value) {
    Comparable(a) && Comparable(b) && NumericValue(a).value <= NumericValue(b).value
  }

  /** JavaScript `a > b`. */
  predicate Greater(a: Value, b: Value) {
    Less(b, a)
  }

  /** NaN and an invalid date are unordered against everything, themselves
      included. */
  lemma NaNIsUnordered(a: Value, b: Value)
    requires !Comparable(a)
    ensures !Less(a, b) && !Less(b, a) && !LessOrEqual(a, b) && !LessOrEqual(b, a)
  {
  }
}

=== FILE: properties.dfy ===
/**
 Properties of the directive that relate several handler calls, or a
 handler call to the bounds the control ends up within.
 */
module AutoAdjustProperties {
  import opened Wrappers
  import opened JsValue
  import opened Calendar
  import opened JsNumber
  import opened JsDate
  import opened InputType
  import opened AutoAdjust

  /** A `min` change never moves a real value down, and when the bounds are
      usable the value ends at or above the new `min`. */
  lemma MinChangeNeverLowers(c: Control, min: Option<string>)
    requires Comparable(c.ParsedValue())
    ensures var after := HandleMinChange(c, min).control;
            && Comparable(after.ParsedValue())
            && Magnitude(c.ParsedValue()) <= Magnitude(after.ParsedValue())
            && (UsableBounds(c, min, c.max) ==> Magnitude(c.Parse(min)) <= Magnitude(after.ParsedValue()))
  {
  }

  /** A `max` change never moves a real value up, and when the bounds are
      usable the value ends at or below the new `max`. */
  lemma MaxChangeNeverRaises(c: Control, max: Option<string>)
    requires Comparable(c.ParsedValue())
    ensures var after := HandleMaxChange(c, max).control;
            && Comparable(after.ParsedValue())
            && Magnitude(after.ParsedValue()) <= Magnitude(c.ParsedValue())
            && (UsableBounds(c, c.min, max) ==> Magnitude(after.ParsedValue()) <= Magnitude(c.Parse(max)))
  {
  }

  /** A value that does not parse (NaN, an invalid date) is never clamped. */
  lemma UnparsableValueIsKept(c: Control, min: Option<string>, max: Option<string>)
    requires !Comparable(c.ParsedValue())
    ensures HandleMinChange(c, min).control == c
    ensures HandleMaxChange(c, max).control == c
  {
  }

  /** Running the `min` handler again with nothing changed in between writes
      nothing new and schedules the same notification again. */
  lemma MinChangeIdempotent(c: Control, min: Option<string>)
    ensures var once := HandleMinChange(c, min);
            var twice := HandleMinChange(once.control, min);
            twice.control == once.control && twice.scheduled == once.scheduled
  {
    var once := HandleMinChange(c, min);
    assert once.control.Category() == c.Category();
  }

  /** Running the `max` handler again with nothing changed in between writes
      nothing new. */
  lemma MaxChangeIdempotent(c: Control, max: Option<string>)
    ensures var once := HandleMaxChange(c, max);
            var twice := HandleMaxChange(once.control, max);
            twice.control == once.control && twice.scheduled == once.scheduled
  {
    var once := HandleMaxChange(c, max);
    assert once.control.Category() == c.Category();
  }

  /** A bound handler needs both bounds: with the other bound absent it
      parses to NaN or an invalid date, the order check fails, and the
      handler neither clamps nor notifies. */
  lemma LoneBoundIsIgnored(c: Control, bound: Option<string>)
    ensures c.max.None? ==> HandleMinChange(c, bound) == Effect(c, 0)
    ensures c.min.None? ==> HandleMaxChange(c, bound) == Effect(c, 0)
  {
  }

  /** On the same input, the handlers as written ignore a lone real `min`
      below which the value lies, while the intended handlers raise the
      value to it and schedule one notification. */
  lemma LoneMinClampsAsIntended(c: Control, min: Option<string>)
    requires c.Category() != Other && c.max.None?
    requires Comparable(c.Parse(min)) && Comparable(c.ParsedValue())
    requires Magnitude(c.ParsedValue()) < Magnitude(c.Parse(min))
    ensures HandleMinChange(c, min) == Effect(c, 0)
    ensures HandleMinChangeAsIntended(c, min) == Effect(c.(value := Render(c.Parse(min))), 1)
  {
  }

  /** The mirror image: a lone real `max` below the value lowers it only
      in the intended handler. */
  lemma LoneMaxClampsAsIntended(c: Control, max: Option<string>)
    requires c.Category() != Other && c.min.None?
    requires Comparable(c.Parse(max)) && Comparable(c.ParsedValue())
    requires Magnitude(c.ParsedValue()) > Magnitude(c.Parse(max))
    ensures HandleMaxChange(c, max) == Effect(c, 0)
    ensures HandleMaxChangeAsIntended(c, max) == Effect(c.(value := Render(c.Parse(max))), 1)
  {
  }

  /** The intended handlers differ from the ones as written only when the
      changed bound is real and the other one is not. */
  lemma IntendedDiffersOnlyForLoneBounds(c: Control, bound: Option<string>)
    ensures Comparable(c.Parse(c.max)) || !Comparable(c.Parse(bound)) ==>
              HandleMinChangeAsIntended(c, bound) == HandleMinChange(c, bound)
    ensures Comparable(c.Parse(c.min)) || !Comparable(c.Parse(bound)) ==>
              HandleMaxChangeAsIntended(c, bound) == HandleMaxChange(c, bound)
  {
  }

  /** A text-like control never reacts to `min` or `max`. */
  lemma OtherIgnoresRange(c: Control, bound: Option<string>)
    requires c.Category() == Other
    ensures HandleMinChange(c, bound) == Effect(c, 0)
    ensures HandleMaxChange(c, bound) == Effect(c, 0)
  {
  }

  /** With a non-negative `maxlength`, truncating again changes nothing. */
  lemma MaxlengthIdempotent(c: Control, maxlength: string)
    requires ParseAsNumber(maxlength).Num? && ParseAsNumber(maxlength).n >= 0
    ensures var once := HandleMaxlengthChange(c, maxlength);
            var twice := HandleMaxlengthChange(once.control, maxlength);
            twice == once && |once.control.value| <= ParseAsNumber(maxlength).n
  {
  }

  /** A negative `maxlength` counts from the end of the value, so every call
      removes more characters while any are left. */
  lemma NegativeMaxlengthKeepsCutting(c: Control, maxlength: string)
    requires ParseAsNumber(maxlength).Num? && ParseAsNumber(maxlength).n < 0
    requires HandleMaxlengthChange(c, maxlength).control.value != []
    ensures var once := HandleMaxlengthChange(c, maxlength);
            var twice := HandleMaxlengthChange(once.control, maxlength);
            |twice.control.value| < |once.control.value|
  {
  }

  /** The control's value lies between its two usable bounds. */
  predicate InRange(c: Control) {
    && UsableBounds(c, c.min, c.max)
    && Comparable(c.ParsedValue())
    && Magnitude(c.Parse(c.min)) <= Magnitude(c.ParsedValue()) <= Magnitude(c.Parse(c.max))
  }

  /** The `max` listener keeps a value that is already at or above a usable
      `min` within both bounds. */
  lemma MaxStepInRange(c: Control)
    requires UsableBounds(c, c.min, c.max) && Comparable(c.ParsedValue())
    requires Magnitude(c.Parse(c.min)) <= Magnitude(c.ParsedValue())
    ensures InRange(HandleMaxChange(c, c.max).control)
    ensures HandleMaxChange(c, c.max).scheduled == 1
  {
    MaxChangeNeverRaises(c, c.max);
    var c2 := HandleMaxChange(c, c.max).control;
    assert c2.Parse(c2.min) == c.Parse(c.min) && c2.Parse(c2.max) == c.Parse(c.max);
  }

  /** The first digest's two listener calls, `min` then `max`, bring a real
      value within usable bounds. */
  lemma MinThenMaxInRange(c: Control)
    requires UsableBounds(c, c.min, c.max) && Comparable(c.ParsedValue())
    ensures var first := HandleMinChange(c, c.min);
            var second := HandleMaxChange(first.control, c.max);
            InRange(second.control) && first.scheduled == 1 && second.scheduled == 1
  {
    var c1 := HandleMinChange(c, c.min).control;
    MinChangeNeverLowers(c, c.min);
    assert c1.Parse(c1.min) == c.Parse(c.min) && c1.Parse(c1.max) == c.Parse(c.max);
    MaxStepInRange(c1);
  }

  /** Attaching the directive to a numeric or date-like control with usable
      bounds and a real value brings the value within the bounds, and both
      listeners schedule a notification. */
  lemma AttachEstablishesRange(c: Control)
    requires UsableBounds(c, c.min, c.max) && Comparable(c.ParsedValue())
    ensures InRange(Attach(c).control)
    ensures Attach(c).pending == 2
  {
    MinThenMaxInRange(c);
    var first := HandleMinChange(c, c.min);
    assert Listener(c, MinBound) == first;
    assert Listener(first.control, MaxBound) == HandleMaxChange(first.control, c.max);
  }

  /** A change of `min` or `max` that leaves the bounds usable keeps the value
      within them. */
  lemma ChangeKeepsRange(s: Adjuster, b: Bound, a: Option<string>)
    requires InRange(s.control) && b != MaxlengthBound
    requires var c := WithAttribute(s.control, b, a); UsableBounds(c, c.min, c.max)
    ensures InRange(ChangeAttribute(s, b, a).control)
  {
    var c := WithAttribute(s.control, b, a);
    if a != Attribute(s.control, b) {
      if b == MinBound {
        MinChangeNeverLowers(c, c.min);
      } else {
        MaxChangeNeverRaises(c, c.max);
      }
    }
  }

  /** Changing one attribute and running the digest is the digest in which
      only that attribute changed. */
  lemma SingleChangeIsDigest(s: Adjuster, b: Bound, a: Option<string>)
    requires Watches(s.control.Category(), b) && a != Attribute(s.control, b) && b == MaxlengthBound
             ==> a.Some?
    ensures var c := WithAttribute(s.control, b, a);
            ChangeAttribute(s, b, a) == Digest(s, c.min, c.max, c.maxlength)
  {
  }

  /** A digest in which `min`, `max` or both change, leaving the bounds
      usable, keeps a value that was within the old bounds within the new
      ones: the `min` listener raises it no higher than the new `max`, and
      the `max` listener lowers it no lower than the new `min`. */
  lemma DigestKeepsRange(s: Adjuster, min: Option<string>, max: Option<string>, maxlength: Option<string>)
    requires InRange(s.control)
    requires var c := s.control.(min := min, max := max, maxlength := maxlength); UsableBounds(c, min, max)
    ensures InRange(Digest(s, min, max, maxlength).control)
  {
    var c := s.control.(min := min, max := max, maxlength := maxlength);
    var c1 := OnChange(c, MinBound, s.control.min).control;
    assert c1.Parse(c1.min) == c.Parse(min) && c1.Parse(c1.max) == c.Parse(max);
    if min != s.control.min {
      MinChangeNeverLowers(c, min);
    }
    assert Comparable(c1.ParsedValue()) && Magnitude(c.Parse(min)) <= Magnitude(c1.ParsedValue());
    if max != s.control.max {
      MaxStepInRange(c1);
    } else {
      assert Magnitude(c1.ParsedValue()) <= Magnitude(c.Parse(max));
    }
  }

  /** A date control whose value is later than a new `max` that is not
      before `min` is set to the `max` date, written `YYYY-MM-DD`, with one
      notification. */
  lemma DateLoweredToMax(c: Control, value: CalendarDate, lo: CalendarDate, hi: CalendarDate)
    requires c.Category() == Date
    requires value.Valid() && lo.Valid() && hi.Valid()
    requires c.value == FormatCalendarDate(value) && c.min == Some(FormatCalendarDate(lo))
    requires !Before(hi, lo) && Before(hi, value)
    ensures var max := Some(FormatCalendarDate(hi));
            HandleMaxChange(c, max) == Effect(c.(value := FormatCalendarDate(hi)), 1)
  {
    DateBoundsClamp(c, value, lo, hi);
  }

  lemma DateBoundsClamp(c: Control, value: CalendarDate, lo: CalendarDate, hi: CalendarDate)
    requires c.Category() == Date
    requires value.Valid() && lo.Valid() && hi.Valid()
    requires c.value == FormatCalendarDate(value) && c.min == Some(FormatCalendarDate(lo))
    requires !Before(hi, lo) && Before(hi, value)
    ensures var max := Some(FormatCalendarDate(hi));
            MaxClamps(c, max) && Render(c.Parse(max)) == max.value
  {
    var max := Some(FormatCalendarDate(hi));
    DateReadsAs(c, value);
    DateReadsAs(c, lo);
    DateReadsAs(c, hi);
    assert DayNumber(lo) <= DayNumber(hi) by { DayNumberOrder(hi, lo); }
    assert DayNumber(hi) < DayNumber(value) by { DayNumberOrder(hi, value); }
  }

  /** A date control reads a date's `YYYY-MM-DD` text as that date, and
      writes that date back as the same text. */
  lemma DateReadsAs(c: Control, date: CalendarDate)
    requires c.Category() == Date && date.Valid()
    ensures c.Parse(Some(FormatCalendarDate(date))) == Day(DayNumber(date))
    ensures Render(Day(DayNumber(date))) == FormatCalendarDate(date)
  {
    ParseFormatCalendarDate(date);
    DateOfDayNumber(date);
  }

  /** A `month` control's bounds are `YYYY-MM` strings, but a clamped value
      is written back as the full date `YYYY-MM-01`. */
  lemma MonthBoundWrittenAsDate(c: Control, min: string)
    requires c.Category() == Date && |min| == 7 && MinClamps(c, Some(min))
    ensures HandleMinChange(c, Some(min)).control.value == min + "-01"
  {
    var date := ParseDateOnly(min).value;
    assert c.Parse(Some(min)) == Day(DayNumber(date));
    assert Render(Day(DayNumber(date))) == FormatCalendarDate(date) by { DateReadsAs(c, date); }
    MonthFormWrittenOut(min);
  }
}

=== FILE: scenarios.dfy ===
/**
 Concrete controls and bound changes, worked through the model.
 */
module AutoAdjustScenarios {
  import opened Text
  import opened Wrappers
  import opened JsValue
  import opened JsNumber
  import opened InputType
  import opened AutoAdjust
  import AutoAdjustProperties

  /** `s` is how the number `n` is written, so a numeric control reads it
      as `n` and writes `n` back as `s`. */
  lemma NumberText(c: Control, n: int, s: string)
    requires c.Category() == Numeric && FormatNumber(n) == s
    ensures c.Parse(Some(s)) == Num(n) && Render(Num(n)) == s
  {
    ParseFormatNumber(n);
  }

  lemma NumberKind(c: Control)
    requires c.kind == "number"
    ensures c.Category() == Numeric
  {
    ClassifyInputTypes();
  }

  /** A number input at 5 whose `min` becomes 10 (with `max` 100) is raised
      to "10" and one notification is scheduled. */
  lemma NumberRaisedToMin()
    ensures var c := Control("number", "5", Some("10"), Some("100"), None);
            HandleMinChange(c, Some("10")) == Effect(c.(value := "10"), 1)
  {
    var c := Control("number", "5", Some("10"), Some("100"), None);
    NumberKind(c);
    NumberText(c, 5, "5");
    NumberText(c, 10, "10");
    NumberText(c, 100, "100");
  }

  /** An empty number input reads as 0, so a positive `min` fills it in. */
  lemma EmptyNumberRaisedToMin()
    ensures var c := Control("number", "", Some("10"), Some("20"), None);
            HandleMinChange(c, Some("10")) == Effect(c.(value := "10"), 1)
  {
    var c := Control("number", "", Some("10"), Some("20"), None);
    NumberKind(c);
    assert c.ParsedValue() == Num(0);
    NumberText(c, 10, "10");
    NumberText(c, 20, "20");
  }

  /** A number input at 3 whose `min` becomes 15 while `max` is 10 is left
      alone, and nothing is scheduled. */
  lemma CrossedBoundsIgnored()
    ensures var c := Control("number", "3", Some("15"), Some("10"), None);
            HandleMinChange(c, Some("15")) == Effect(c, 0)
  {
    var c := Control("number", "3", Some("15"), Some("10"), None);
    NumberKind(c);
    NumberText(c, 15, "15");
    NumberText(c, 10, "10");
  }

  /** A text input holding "hello world" whose `maxlength` becomes 5 is cut
      to "hello". */
  lemma TextTruncated()
    ensures var c := Control("text", "hello world", None, None, Some("5"));
            HandleMaxlengthChange(c, "5") == Effect(c.(value := "hello"), 1)
  {
    assert FormatNumber(5) == "5";
    ParseFormatNumber(5);
    assert !AllWhitespace("5");
    assert "hello world"[..5] == "hello";
  }

  /** A blank `maxlength` is ignored: nothing changes, nothing is scheduled. */
  lemma BlankMaxlengthIgnored(c: Control)
    ensures HandleMaxlengthChange(c, "") == Effect(c, 0)
    ensures HandleMaxlengthChange(c, "  ") == Effect(c, 0)
  {
  }

  /** A number input at 5 without `max` whose `min` becomes 10: the code as
      written leaves it alone, the intended handler raises it to "10". */
  lemma LoneMinCounterexample()
    ensures var c := Control("number", "5", Some("10"), None, None);
            && HandleMinChange(c, Some("10")) == Effect(c, 0)
            && HandleMinChangeAsIntended(c, Some("10")) == Effect(c.(value := "10"), 1)
  {
    var c := Control("number", "5", Some("10"), None, None);
    NumberKind(c);
    NumberText(c, 5, "5");
    NumberText(c, 10, "10");
    AutoAdjustProperties.LoneMinClampsAsIntended(c, Some("10"));
  }

  /** A number input at 20 without bounds gets `min` 0 and `max` 10 in the
      same digest: the `min` listener already sees `max` and schedules a
      notification, then the `max` listener lowers the value to "10". */
  lemma BothBoundsInOneDigest(n: nat)
    ensures var s := Adjuster(Control("number", "20", None, None, None), n);
            Digest(s, Some("0"), Some("10"), None) == Adjuster(s.control.(min := Some("0"), max := Some("10"), value := "10"), n + 2)
  {
    var c := Control("number", "20", Some("0"), Some("10"), None);
    NumberKind(c);
    NumberText(c, 20, "20");
    NumberText(c, 0, "0");
    NumberText(c, 10, "10");
  }

  /** The same bounds set one digest at a time: `min` arrives while `max` is
      still absent and is ignored, so only the `max` listener schedules a
      notification. */
  lemma BoundsSetOneAtATime(n: nat)
    ensures var s := Adjuster(Control("number", "20", None, None, None), n);
            var afterMin := ChangeAttribute(s, MinBound, Some("0"));
            ChangeAttribute(afterMin, MaxBound, Some("10"))
              == Adjuster(s.control.(min := Some("0"), max := Some("10"), value := "10"), n + 1)
  {
    var s := Adjuster(Control("number", "20", None, None, None), n);
    var c := Control("number", "20", Some("0"), None, None);
    LoneMinIgnored(s, c);
    MaxLowersTwenty(Adjuster(c, n), c.(max := Some("10")));
  }

  /** The first step: `min` 0 arrives while `max` is absent. */
  lemma LoneMinIgnored(s: Adjuster, c: Control)
    requires s.control == Control("number", "20", None, None, None)
    requires c == s.control.(min := Some("0"))
    ensures ChangeAttribute(s, MinBound, Some("0")) == Adjuster(c, s.pending)
  {
    NumberKind(c);
    AutoAdjustProperties.LoneBoundIsIgnored(c, Some("0"));
  }

  /** The second step: `max` 10 arrives while `min` is 0. */
  lemma MaxLowersTwenty(s: Adjuster, c: Control)
    requires s.control == Control("number", "20", Some("0"), None, None)
    requires c == s.control.(max := Some("10"))
    ensures ChangeAttribute(s, MaxBound, Some("10")) == Adjuster(c.(value := "10"), s.pending + 1)
  {
    NumberKind(c);
    NumberText(c, 20, "20");
    NumberText(c, 0, "0");
    NumberText(c, 10, "10");
  }
}

=== FILE: text.dfy ===
/**
 Character classes and decimal numerals shared by the number and date
 parsers: ECMAScript white space, `String.prototype.trim`, and conversion
 between digit strings and natural numbers.
 */
module Text {

  /** A WhiteSpace or LineTerminator code point of ECMAScript: the characters
      that `String.prototype.trim` removes and that `Number(s)` ignores at
      both ends of its argument. */
  predicate IsWhitespace(ch: char) {
    ch in Whitespace
  }

  const Whitespace: set<char> := {
    '\t', '\n', '\U{000B}', '\U{000C}', '\r', ' ', '\U{00A0}', '\U{1680}',
    '\U{2000}', '\U{2001}', '\U{2002}', '\U{2003}', '\U{2004}', '\U{2005}',
    '\U{2006}', '\U{2007}', '\U{2008}', '\U{2009}', '\U{200A}',
    '\U{2028}', '\U{2029}', '\U{202F}', '\U{205F}', '\U{3000}', '\U{FEFF}'
  }

  predicate AllWhitespace(s: string) {
    forall i :: 0 <= i < |s| ==> IsWhitespace(s[i])
  }

  predicate IsDigit(ch: char) {
    '0' <= ch <= '9'
  }

  predicate AllDigits(s: string) {
    forall i :: 0 <= i < |s| ==> IsDigit(s[i])
  }

  /** The first index at or after `i` that does not hold white space. */
  function SkipWhitespace(s: string, i: nat): (k: nat)
    requires i <= |s|
    ensures i <= k <= |s|
    ensures forall j :: i <= j < k ==> IsWhitespace(s[j])
    ensures k == |s| || !IsWhitespace(s[k])
    decreases |s| - i
  {
    if i < |s| && IsWhitespace(s[i]) then SkipWhitespace(s, i + 1) else i
  }

  /** The smallest end, down from `k` but not below `lo`, with only white
      space between it and `k`. */
  function SkipWhitespaceBack(s: string, lo: nat, k: nat): (e: nat)
    requires lo <= k <= |s|
    ensures lo <= e <= k
    ensures forall j :: e <= j < k ==> IsWhitespace(s[j])
    ensures e == lo || !IsWhitespace(s[e - 1])
    decreases k
  {
    if lo < k && IsWhitespace(s[k - 1]) then SkipWhitespaceBack(s, lo, k - 1) else k
  }

  /** `String.prototype.trim`: `s` without its leading and trailing white
      space. */
  function Trim(s: string): (r: string)
    ensures |r| <= |s|
    ensures r == [] <==> AllWhitespace(s)
    ensures r == [] || (!IsWhitespace(r[0]) && !IsWhitespace(r[|r| - 1]))
  {
    var i := SkipWhitespace(s, 0);
    var e := SkipWhitespaceBack(s, i, |s|);
    assert i < e ==> !IsWhitespace(s[i]) && !AllWhitespace(s);
    s[i..e]
  }

  /** What `Trim` removes is white space at the two ends, and nothing else. */
  lemma TrimTakesMiddle(s: string)
    ensures exists i, j :: 0 <= i <= j <= |s| && Trim(s) == s[i..j]
                           && AllWhitespace(s[..i]) && AllWhitespace(s[j..])
  {
    var i := SkipWhitespace(s, 0);
    var j := SkipWhitespaceBack(s, i, |s|);
    assert AllWhitespace(s[..i]);
    assert AllWhitespace(s[j..]) by {
      forall k | 0 <= k < |s[j..]|
        ensures IsWhitespace(s[j..][k])
      {
        assert s[j..][k] == s[j + k];
      }
    }
  }

  /** Trimming leaves a string alone exactly when it neither starts nor ends
      with white space. */
  lemma TrimIdentity(s: string)
    requires s == [] || (!IsWhitespace(s[0]) && !IsWhitespace(s[|s| - 1]))
    ensures Trim(s) == s
  {
  }

  lemma DigitIsNotWhitespace(ch: char)
    requires IsDigit(ch)
    ensures !IsWhitespace(ch)
  {
  }

  function DigitValue(ch: char): (d: nat)
    requires IsDigit(ch)
    ensures d < 10
  {
    (ch as int - '0' as int) as nat
  }

  function DigitChar(d: nat): (ch: char)
    requires d < 10
    ensures IsDigit(ch) && DigitValue(ch) == d
  {
    ('0' as int + d) as char
  }

  /** The number a string of decimal digits denotes (leading zeros allowed). */
  function DecimalValue(s: string): nat
    requires AllDigits(s)
  {
    if s == [] then 0 else DecimalValue(s[..|s| - 1]) * 10 + DigitValue(s[|s| - 1])
  }

  function Pow10(k: nat): (p: nat)
    ensures p >= 1
  {
    if k == 0 then 1 else 10 * Pow10(k - 1)
  }

  /** A string of `k` digits denotes a number below 10^k. */
  lemma {:induction false} DecimalValueBound(s: string)
    requires AllDigits(s)
    ensures DecimalValue(s) < Pow10(|s|)
  {
    if s != [] {
      DecimalValueBound(s[..|s| - 1]);
    }
  }

  /** The shortest decimal numeral of `n`: what ECMAScript's Number::toString
      produces for a non-negative integer below 10^21 (from 10^21 on it
      switches to exponent notation, `1e+21`). */
  function Decimal(n: nat): (r: string)
    ensures r != [] && AllDigits(r)
    ensures DecimalValue(r) == n
    ensures |r| > 1 ==> r[0] != '0'
  {
    if n < 10 then
      [DigitChar(n)]
    else
      var r := Decimal(n / 10) + [DigitChar(n % 10)];
      assert r[..|r| - 1] == Decimal(n / 10);
      r
  }

  /** A digit string whose first digit is not `0` denotes a positive number. */
  lemma {:induction false} LeadingDigitPositive(s: string)
    requires s != [] && AllDigits(s) && s[0] != '0'
    ensures DecimalValue(s) >= 1
  {
    if |s| > 1 {
      var p := s[..|s| - 1];
      assert p[0] == s[0];
      LeadingDigitPositive(p);
    }
  }

  /** A digit string without a leading zero is the shortest numeral of the
      number it denotes. */
  lemma {:induction false} DecimalOfValue(s: string)
    requires s != [] && AllDigits(s) && (|s| > 1 ==> s[0] != '0')
    ensures Decimal(DecimalValue(s)) == s
  {
    var last := s[|s| - 1];
    assert DigitChar(DigitValue(last)) == last;
    if |s| > 1 {
      var p := s[..|s| - 1];
      assert p[0] == s[0];
      LeadingDigitPositive(p);
      if |p| > 1 {
        assert p[0] != '0';
      }
      DecimalOfValue(p);
      assert s == p + [last];
    }
  }

  /** `n` written with exactly `width` digits, padded with leading zeros. */
  function FixedDecimal(n: nat, width: nat): (r: string)
    requires n < Pow10(width)
    ensures |r| == width && AllDigits(r)
    ensures DecimalValue(r) == n
  {
    if width == 0 then
      []
    else
      var r := FixedDecimal(n / 10, width - 1) + [DigitChar(n % 10)];
      assert r[..|r| - 1] == FixedDecimal(n / 10, width - 1);
      r
  }

  /** A fixed-width digit string is the padded numeral of its own value:
      the other direction of `FixedDecimal`'s round trip. */
  lemma {:induction false} FixedDecimalOfValue(s: string)
    requires AllDigits(s)
    ensures DecimalValue(s) < Pow10(|s|) && FixedDecimal(DecimalValue(s), |s|) == s
  {
    DecimalValueBound(s);
    if s != [] {
      var init := s[..|s| - 1];
      var last := s[|s| - 1];
      var v := DecimalValue(s);
      FixedDecimalOfValue(init);
      LastDigit(DecimalValue(init), DigitValue(last));
      assert DigitChar(DigitValue(last)) == last;
      assert FixedDecimal(v, |s|) == FixedDecimal(v / 10, |s| - 1) + [DigitChar(v % 10)];
      assert s == init + [last];
    }
  }

  /** Appending a digit multiplies by ten and adds it. */
  lemma LastDigit(q: nat, d: nat)
    requires d < 10
    ensures (q * 10 + d) / 10 == q && (q * 10 + d) % 10 == d
  {
  }
}

=== FILE: wrappers.dfy ===
/**
 A value that may be absent: an attribute that is not set, or a parse that
 found nothing.
 */
module Wrappers {

  datatype Option<T> = None | Some(value: T)
}
